=== FILE: README.md ===
# Queue-server communication layer, modelled in Dafny

This project models the decision logic of the communication module of the
bluesky queue server (`bluesky_queueserver/manager/comms.py`). That module is
how the RE Manager talks to its worker process over a `multiprocessing` pipe
(JSON-RPC 2.0), and how outside callers talk to the manager over a ZeroMQ
request/reply socket. Threads, the asyncio event loop, the pipe and the socket
are replaced by explicit inputs. What remains is a set of pure functions and
state transitions:

- **Request construction** (`Codec`). `format_jsonrpc_msg` builds a JSON-RPC
  request. The random id is supplied by the caller. `ParseRequest` reads a
  request back; the two round-trip lemmas relate them in both directions.
- **Errors** (`Errors`). `CommJsonRpcError` and its `__str__`/`__repr__` texts.
  Every exception that reaches the caller of `send_msg`, `send_message`,
  `zmq_single_request` or the `ZMQCommSendAsync` constructor is one case of the
  `CommFailure` type, including a `ZMQError` raised while opening the socket.
  The exceptions `_response_received` raises inside its own task are verdicts
  of `PipeClient.Delivery` instead.
- **Response interpretation** (`Response`). A response dictionary becomes one
  of four things: a returned `result`, a `CommJsonRpcError`, a malformed-response
  `RuntimeError`, or the `KeyError`/`TypeError` the source raises while reading
  an error object that lacks `code`, `message`, `data.type` or `data.message`.
- **Pipe client** (`PipeClient`). This is the state of `PipeJsonRpcSendAsync`:
  `_expected_msg_id`, `_fut_comm`, the request of the call holding
  `_lock_comm`, and the messages written. `_response_received` is a transition.
  A call is driven by a sequence of events: a message handed over by the receive
  thread, the `wait_for` deadline expiring, or the waiting task resuming.
  `Consistent` is the invariant every transition keeps. Every finished call
  leaves the client `Idle`.
- **Receive loop** (`ReceiveLoop`). The idempotent start, the stop flag, and the
  polling loop shared by `PipeJsonRpcReceive._receive_conn_thread` and
  `PipeJsonRpcSendAsync._pipe_receive`. The loop runs over a sequence of
  iteration outcomes.
- **Socket client** (`ZmqClient`). `ZMQCommSendAsync.send_message` and
  `zmq_single_request`. One exchange is an abstract outcome: a reply, or a
  failure text. The socket is a generation counter that grows when the socket
  is closed and a reopen is attempted.

Some behaviours of the source worth knowing, and where the model reflects them:

- `Start` while the running flag is set launches nothing (`ReceiveLoop.Start`).
  In the source the receive loop never clears that flag when it stops on an
  exception, so a later `start()` does not revive it. The model shows this only
  indirectly: `RunLoop` reads the flag but has no way to write it.
- `stop()` followed quickly by `start()` launches a second thread. The first
  thread may not have seen the cleared flag yet.
- If a second response with the expected id arrives after the future is
  already set, `set_result` raises inside the handler task. The client state
  does not change (`Delivery.AlreadyCompleted`).
- `zmq_single_request` can return `(None, "")`. This happens when the server
  replies `null`, or when an exception's text is empty.
  `SingleRequestErrorIffException` states exactly when the error text is empty.
- `send_message` can raise even when `raise_timeout_exceptions` is off: the
  socket restart after a failed exchange lets a connect failure escape.

## Model

| member | source | states |
|---|---|---|
| `JsonValue.Contains` | bluesky_queueserver/manager/comms.py:379 | `"id" in response` follows Python: dictionary membership for dicts, element membership of the string for lists, the substring test for strings, `TypeError` for `None`, booleans and integers |
| `JsonValue.IndexAgreesWithContains` | bluesky_queueserver/manager/comms.py:378-380 | the `"id" in response` test before `response["id"]` is sound: a read that succeeds implies the test passed, on a dictionary the two agree, and a list that passes the test still fails the read |
| `JsonValue.DecimalRoundTrip` | bluesky_queueserver/manager/comms.py:57 | the decimal text of a non-negative code reads back as the same number |
| `JsonValue.DisplayIntRoundTrip` | bluesky_queueserver/manager/comms.py:57 | `str()` of any integer error code, sign included, reads back as that integer |
| `Errors.ErrorText` | bluesky_queueserver/manager/comms.py:56-58 | `str(CommJsonRpcError)` is the message, a line break, then `Error code: <code>. Error type: <type>` with both printed by `str()` |
| `Errors.MessageRecoverable` | bluesky_queueserver/manager/comms.py:52-58 | for a one-line message, the first line of `str(e)` is exactly `e.message` |
| `Errors.ErrorRepr` | bluesky_queueserver/manager/comms.py:60-61 | `repr(e)` is `CommJsonRpcError('` then the message, and ends with `')` |
| `Errors.FailureText` | bluesky_queueserver/manager/comms.py:356-368 | `str()` of each exception: a `CommJsonRpcError` prints as its `__str__`; a timeout, a write failure or a `ZMQError` prints its own text; a refused connect prints `Failed to connect to the server '<address>'`; a failed lookup prints the quoted key; the malformed-response and pipe-timeout texts start with their fixed leading words |
| `Codec.FormatJsonRpcMsg` | bluesky_queueserver/manager/comms.py:64-82 | the request has `method` and `jsonrpc` = "2.0"; `params` is present iff params is not None; `id` (the fresh token) is present iff not a notification; there are no other keys |
| `Codec.FormatThenParse` | bluesky_queueserver/manager/comms.py:77-82 | every built request reads back as the method, params and id it was built from |
| `Codec.ParseThenFormat` | bluesky_queueserver/manager/comms.py:77-82 | every well-formed request without explicit null params is exactly what `format_jsonrpc_msg` builds from its parts |
| `Response.ErrorFromObject` | bluesky_queueserver/manager/comms.py:345-356 | reading the error object succeeds iff it has `code`, `message` and (if `data`) `data.type`/`data.message`. `error_code` = `error.code`. With `data`: type = `data.type`, message = `message + ": " + data.message`. Without `data`: type = "CommJsonRpcError", message = `error.message`. On failure the key reported is the first lookup that fails, in the source's order: `code` if the object is not a dictionary holding it, then `type` if `data` is present but holds no `type`, otherwise `message` |
| `Response.InterpretResponse` | bluesky_queueserver/manager/comms.py:342-362 | returns `result` iff present, even beside `error`. Otherwise `error` raises the `CommJsonRpcError` that reading the error object yields (message, code and type as `ErrorFromObject` states) if it is well-formed, or the lookup error for the key that failed if not. Otherwise the response is malformed and names the request and response |
| `Response.ResponseShapes` | bluesky_queueserver/manager/comms.py:342-356 | the peer's result response, error response with and without `data`, and a bare response map to the returned value, the mapped `CommJsonRpcError` and the malformed failure |
| `PipeClient.NewClient` | bluesky_queueserver/manager/comms.py:246-260 | a new client has no call in flight, no expected id, no future and nothing written, so it satisfies the invariant |
| `PipeClient.ClearCall` | bluesky_queueserver/manager/comms.py:369-371 | the `finally` clause leaves the client idle and keeps the record of sent messages |
| `PipeClient.ResponseReceived` | bluesky_queueserver/manager/comms.py:373-398 | a message completes the call iff an id is expected, the future is pending, and the message is a dict whose `id` equals the expected id. Every other message leaves the state unchanged. "Unsolicited" holds exactly when no id is expected. The invariant is preserved |
| `PipeClient.BeginSend` | bluesky_queueserver/manager/comms.py:328-340 | starts only when idle (the lock). Writes exactly the formatted request. A notification returns None at once with no expected id. Otherwise the expected id is the request's id and the future is pending. A write error raises and leaves the client idle |
| `PipeClient.OnDeadline` | bluesky_queueserver/manager/comms.py:367-371 | a pending future at the deadline raises `CommTimeoutError` naming the request and clears the call; a future already set is left to be read |
| `PipeClient.OnResume` | bluesky_queueserver/manager/comms.py:340-371 | a resumed call interprets the response in its future and clears the call |
| `PipeClient.Step` | bluesky_queueserver/manager/comms.py:339-371 | every event keeps the invariant and the sent record. A call only finishes on a deadline or a resume, and then leaves the client idle. A message goes through `_response_received`. A deadline on a pending future raises `CommTimeoutError` naming the request. A resume with the future set interprets its response. A deadline with the future set, or a resume with it pending, changes nothing |
| `PipeClient.Drive` | bluesky_queueserver/manager/comms.py:328-371 | over any event sequence, the invariant holds. A finished call leaves the client idle, on every exit path. An unfinished call still awaits its own id |
| `PipeClient.SendMsg` | bluesky_queueserver/manager/comms.py:325-371 | `send_msg` end to end. It ends idle whenever it ends. A notification ends at once, returns None and never sets an expected id. A timeout raises `CommTimeoutError` naming exactly the request that was sent |
| `PipeClient.TimeoutMeansNoReply` | bluesky_queueserver/manager/comms.py:335-368 | a call times out only if its future was pending, the last event was the deadline, and no message carrying its id arrived before it |
| `PipeClient.DeadlineEndsPendingCall` | bluesky_queueserver/manager/comms.py:335-368 | a pending call ends no later than its first deadline with `CommTimeoutError` naming its request, if no message carrying its id came first |
| `PipeClient.ReplyThenResumeReturnsIt` | bluesky_queueserver/manager/comms.py:339-362 | the first message carrying the expected id, arriving before any deadline and followed by a resume, is what the call returns or raises |
| `PipeClient.ResumeReadsSetFuture` | bluesky_queueserver/manager/comms.py:339-342 | once the future is set, the next resume interprets its response, whatever deadlines or late messages come in between |
| `PipeClient.SendMsgCompletes` | bluesky_queueserver/manager/comms.py:297-371 | `send_msg` of a written request raises `CommTimeoutError` naming it when no response carrying its id precedes the deadline, and returns or raises what the first such response says when it precedes the deadline and a resume follows |
| `PipeClient.OutcomeFromFirstMatchingReply` | bluesky_queueserver/manager/comms.py:378-390 | every other finished call returns or raises what the first message carrying the expected id says (or what was already in the future) |
| `PipeClient.LateResponseDiscarded` | bluesky_queueserver/manager/comms.py:394-398 | after a call finishes, any late message is dropped as unsolicited without changing the client |
| `ReceiveLoop.Start` | bluesky_queueserver/manager/comms.py:277-284 | a thread is launched iff the running flag was clear; the flag is set afterwards (the same logic as lines 152-158) |
| `ReceiveLoop.StartIdempotent` | bluesky_queueserver/manager/comms.py:277-284 | a second `start` is a no-op |
| `ReceiveLoop.RestartLaunchesAnotherThread` | bluesky_queueserver/manager/comms.py:268-284 | `stop` then `start` always launches one more thread and leaves the flag set, whatever the earlier thread is doing |
| `ReceiveLoop.RunLoop` | bluesky_queueserver/manager/comms.py:403-416 | the loop hands over exactly the messages read, in order, up to where it stops. It stops at the first exception, or after the first iteration that reads the flag as false; that iteration's message is still handed over. Every earlier iteration was fault-free with the flag set (the same control as lines 160-173) |
| `ZmqClient.OpenFailure` | bluesky_queueserver/manager/comms.py:506-517 | opening a socket raises nothing iff `connect` returns a false value; a true value raises "Failed to connect" naming the address; a `ZMQError` from `ctx.socket` or `connect` escapes unchanged |
| `ZmqClient.NewClient` | bluesky_queueserver/manager/comms.py:455-517 | construction succeeds iff the socket opens. A missing or empty address becomes `tcp://localhost:5555`, any other is kept. It starts at socket generation 0 with no requests sent and the given timeouts and flag. Otherwise it raises "Failed to connect" naming the resolved address, or lets the `ZMQError` escape |
| `ZmqClient.CreateMsg` | bluesky_queueserver/manager/comms.py:523-524 | the request has exactly the keys `method` and `params`, holding the arguments |
| `ZmqClient.SendMessage` | bluesky_queueserver/manager/comms.py:526-568 | sends `{method, params or {}}`. Only the sent record and the socket generation of the client change; the address, timeouts and flag stay as they were. The socket generation grows iff the exchange failed: the socket was closed and a reopen was attempted before returning. A reply is returned unchanged. A failure raises `CommTimeoutError` or returns `{"success": False, "msg": "ZMQ communication error: " + text}`, per the flag. A failed reopen raises "Failed to connect" or lets the `ZMQError` escape, even when the flag is off. So it raises iff the exchange failed and either the flag is set or reopening failed |
| `ZmqClient.SentParamsNormalised` | bluesky_queueserver/manager/comms.py:554-559 | the sent `params` is `{}` iff the caller's params were falsy; non-falsy params are sent unchanged |
| `ZmqClient.SingleRequest` | bluesky_queueserver/manager/comms.py:596-616 | never raises. On success it returns `(reply, "")`, and a failed exchange comes back as the failure reply with an empty error. Any exception (from the runner, from opening or reopening the socket) gives `(None, str(ex))` |
| `ZmqClient.SingleRequestErrorIffException` | bluesky_queueserver/manager/comms.py:604-616 | the error text is empty iff no exception occurred, provided every exception involved has a text; a non-empty error always comes with `None` |
| `ZmqClient.SingleRequestHidesCommunicationError` | bluesky_queueserver/manager/comms.py:596-616 | on a plain timeout the code returns the failure dictionary with an empty error text, not the `None` and error text its documentation promises |
| `ZmqClient.IntendedSingleRequest` | bluesky_queueserver/manager/comms.py:574-577 | with a client that raises on communication errors, a timeout gives `(None, "ZMQ communication error: " + text)` and a reply gives `(reply, "")` |
| `ZmqClient.IntendedSingleRequestReportsErrors` | bluesky_queueserver/manager/comms.py:586-593 | in the intended variant the error text is empty iff the server replied, the message is then the reply, and a non-empty error always comes with `None` |

## Left out

- Threads and asyncio scheduling (`threading.Thread`, `call_soon_threadsafe`, `create_task`, `wait_for`, the two `asyncio.Lock`s). They become event sequences and the precondition `Idle` on `BeginSend`. The socket client's lock is implicit, because calls are sequential in the model.
- Wall-clock time. The values `timeout`/`_timeout_comm`, the 0.1 s polling interval and the socket `RCVTIMEO`/`SNDTIMEO`/`LINGER` are not acted on. An expired deadline is the `Expire` event; the socket timeouts are carried as data only.
- `asyncio.wait_for` when the deadline and the completion coincide. The model follows the behaviour where an already-set future wins (`OnDeadline`). Newer asyncio versions can raise the timeout instead.
- Pipe and ZeroMQ I/O (`poll`, `send`, `recv`, `send_json`, `recv_json`, contexts, `close`). They become poll outcomes, an optional write error, and exchange outcomes. `connect` becomes the `Connect` outcome: success, a true return value, or a raised `ZMQError` with its text.
- `JSONRPCResponseManager.handle` and `Dispatcher`/`add_method` (lines 138-150 and 175-186). They belong to the external `json-rpc` package; in the receive loop a request is a `Got` poll, and an exception from handling it is a `Broken` poll.
- `json.dumps`/`json.loads` and `uuid.uuid4`. Values are already decoded `Json`; the id is the caller's `freshId`.
- JSON floating-point numbers and dictionary key order.
- Logging, `pprint.pformat`, and the `get_loop`/`__del__` methods.
- `JsonValue.Display` is Python's `str()`, exact for `None`, booleans, integers and strings. Lists and dictionaries render as `[...]` and `{...}`, so the malformed-response and timeout texts in `Errors.FailureText` do not reproduce `pprint` output.
- Errors.ErrorRepr: the contract fixes the head of the text (with the message) and its closing `')`. The code and type between them are fixed only by the body.
- Errors.FailureText: for a failed lookup it gives the `KeyError` text (the quoted key). The `TypeError` text Python prints when the value is not a dictionary is not modelled. For the malformed-response and pipe-timeout texts the contract fixes only the leading words, since the dictionaries after them are not rendered as `pprint` would.
- `send_message`'s `raise_exceptions` argument is not modelled, because the source never reads it.

## Findings

| source | as written | input that shows it | evidently intended | confidence | as-written member | corrected member |
|---|---|---|---|---|---|---|
| bluesky_queueserver/manager/comms.py:600 | `zmq_single_request` builds its client with the default `raise_timeout_exceptions=False`, so a timeout is returned as `{"success": False, "msg": ...}` with an empty error text | a server that does not answer: the exchange fails with a timeout text and the socket reopens | a communication error gives `msg = None` and a non-empty `err_msg`, as the docstring at lines 574-577 and 589-593 says | medium; not executed | `ZmqClient.SingleRequestHidesCommunicationError` | `ZmqClient.IntendedSingleRequestReportsErrors` |

=== FILE: codec.dfy ===
/** Construction of JSON-RPC 2.0 request messages (`format_jsonrpc_msg`) and the
    reading of such a message back into its parts. */
module Codec {
  import opened JsonValue

  const ProtocolVersion := "2.0"

  /** The parts of a request: `params` is absent when the caller passed none,
      `id` is absent for a notification. */
  datatype Request = Request(methodName: string, params: Option<Json>, id: Option<string>)

  /** `format_jsonrpc_msg(method, params, notification=...)`. Python's `None` for
      `params` is `JNull`. The random id the source draws is supplied as `freshId`. */
  function FormatJsonRpcMsg(methodName: string, params: Json, notification: bool, freshId: string)
    : (msg: map<string, Json>)
    ensures "method" in msg && msg["method"] == JString(methodName)
    ensures "jsonrpc" in msg && msg["jsonrpc"] == JString(ProtocolVersion)
    ensures "params" in msg <==> params != JNull
    ensures "params" in msg ==> msg["params"] == params
    ensures "id" in msg <==> !notification
    ensures "id" in msg ==> msg["id"] == JString(freshId)
    ensures msg.Keys <= {"method", "jsonrpc", "params", "id"}
  {
    var base := map["method" := JString(methodName), "jsonrpc" := JString(ProtocolVersion)];
    var withParams := if params != JNull then base["params" := params] else base;
    if notification then withParams else withParams["id" := JString(freshId)]
  }

  /** Reads a request message: version tag "2.0", a string `method`, optional
      `params`, an optional string `id`, and no other keys. */
  function ParseRequest(msg: map<string, Json>): Option<Request> {
    if "jsonrpc" !in msg || msg["jsonrpc"] != JString(ProtocolVersion) then None
    else if "method" !in msg || !msg["method"].JString? then None
    else if "id" in msg && !msg["id"].JString? then None
    else if !(msg.Keys <= {"method", "jsonrpc", "params", "id"}) then None
    else
      Some(Request(
             msg["method"].s,
             if "params" in msg then Some(msg["params"]) else None,
             if "id" in msg then Some(msg["id"].s) else None))
  }

  /** Every message `format_jsonrpc_msg` builds reads back as the call it encodes. */
  lemma FormatThenParse(methodName: string, params: Json, notification: bool, freshId: string)
    ensures ParseRequest(FormatJsonRpcMsg(methodName, params, notification, freshId))
         == Some(Request(methodName,
                         if params == JNull then None else Some(params),
                         if notification then None else Some(freshId)))
  {
  }

  /** Conversely, every well-formed request whose params are not an explicit
      `null` is exactly what `format_jsonrpc_msg` builds for its parts. */
  lemma ParseThenFormat(msg: map<string, Json>)
    requires ParseRequest(msg).Some?
    requires ParseRequest(msg).value.params != Some(JNull)
    ensures var r := ParseRequest(msg).value;
            FormatJsonRpcMsg(r.methodName,
                             if r.params.Some? then r.params.value else JNull,
                             r.id.None?,
                             if r.id.Some? then r.id.value else "")
            == msg
  {
  }
}

=== FILE: errors.dfy ===
/** The exceptions the communication layer raises, as one closed enumeration,
    and the text of `CommJsonRpcError` (its `__str__` and `__repr__`). */
module Errors {
  import opened JsonValue

  /** Error type recorded when the JSON-RPC error object carries no `data`. */
  const GenericErrorType := "CommJsonRpcError"

  /** `CommJsonRpcError(message, error_code, error_type)`: the message is the text
      the exception was built with; code and type are kept exactly as the peer sent
      them (the JSON-RPC library puts an integer and a string there). */
  datatype CommJsonRpcError = CommJsonRpcError(message: string, errorCode: Json, errorType: Json)

  /** Class name `repr()` prints for a `CommJsonRpcError`. */
  const ErrorClassName := "CommJsonRpcError"

  /** Every exception this layer can let escape. */
  datatype CommFailure =
    | RpcFailure(error: CommJsonRpcError)
      // peer answered with a JSON-RPC error object
    | MalformedResponse(request: map<string, Json>, response: map<string, Json>)
      // `RuntimeError`: the response has neither `result` nor `error`
    | FieldLookup(key: string)
      // `KeyError`/`TypeError` while reading `key` out of the error object
    | PipeTimeout(request: map<string, Json>)
      // `CommTimeoutError` from the pipe client: no matching response in time
    | SendFailed(text: string)
      // the pipe write raised
    | ZmqTimeout(text: string)
      // `CommTimeoutError` from the socket client
    | ConnectFailed(address: string)
      // `RuntimeError`: `connect` returned a true value
    | SocketError(text: string)
      // `ZMQError` raised by `ctx.socket` or `connect` while opening the socket

  /** The text before the first line break of `s`. */
  function FirstLine(s: string): (r: string)
    ensures |r| <= |s| && r == s[..|r|]
    ensures '\n' !in r
    ensures |r| < |s| ==> s[|r|] == '\n'
  {
    if s == [] || s[0] == '\n' then [] else [s[0]] + FirstLine(s[1..])
  }

  /** `str(e)`: the message, then a line naming the code and the type. */
  function ErrorText(e: CommJsonRpcError): (r: string)
    ensures |r| > |e.message| && r[..|e.message|] == e.message
    ensures r[|e.message|] == '\n'
    ensures r[|e.message| + 1..] == "Error code: " + Display(e.errorCode) + ". Error type: " + Display(e.errorType)
  {
    e.message + "\nError code: " + Display(e.errorCode) + ". Error type: " + Display(e.errorType)
  }

  /** A one-line message is recovered intact from the text `str(e)` prints. */
  lemma MessageRecoverable(e: CommJsonRpcError)
    requires '\n' !in e.message
    ensures FirstLine(ErrorText(e)) == e.message
  {
  }

  /** `repr(e)`: `CommJsonRpcError('<message>', <code>, '<type>')`. */
  function ErrorRepr(e: CommJsonRpcError): (r: string)
    ensures var head := ErrorClassName + "('";
            |r| > |head| + |e.message| && r[..|head|] == head
            && r[|head|..|head| + |e.message|] == e.message
    ensures |r| >= 2 && r[|r| - 2..] == "')"
  {
    ErrorClassName + "('" + e.message + "', " + Display(e.errorCode) + ", '" + Display(e.errorType) + "')"
  }

  const MalformedPrefix := "Message "
  const PipeTimeoutPrefix := "Timeout while waiting for response to message: \n"

  /** `str()` of each exception. The request and response dictionaries inside the
      malformed-response and timeout texts are pretty-printed by the source; here
      they appear as `Display` renders a dictionary. */
  function FailureText(f: CommFailure): (r: string)
    ensures f.RpcFailure? ==> r == ErrorText(f.error)
    ensures f.ZmqTimeout? || f.SendFailed? || f.SocketError? ==> r == f.text
    ensures f.ConnectFailed? ==> r == "Failed to connect to the server '" + f.address + "'"
    ensures f.FieldLookup? ==> r == "'" + f.key + "'"
    ensures f.MalformedResponse? ==> MalformedPrefix <= r && |r| > |MalformedPrefix|
    ensures f.PipeTimeout? ==> PipeTimeoutPrefix <= r && |r| > |PipeTimeoutPrefix|
  {
    match f
    case RpcFailure(e) => ErrorText(e)
    case MalformedResponse(request, response) =>
      MalformedPrefix + Display(JObject(request)) + "\nresulted in response with unknown format: "
      + Display(JObject(response))
    case FieldLookup(key) => "'" + key + "'"
    case PipeTimeout(request) =>
      PipeTimeoutPrefix + Display(JObject(request))
    case SendFailed(text) => text
    case ZmqTimeout(text) => text
    case ConnectFailed(address) => "Failed to connect to the server '" + address + "'"
    case SocketError(text) => text
  }
}

=== FILE: json_value.dfy ===
/** JSON-like values exchanged over the pipe and the ZeroMQ socket, together with
    the two pieces of Python semantics the communication layer relies on:
    truthiness (`params or {}`) and `str()` (used to build error texts). */
module JsonValue {

  datatype Option<+T> = None | Some(value: T)

  datatype Result<+R, +E> = Success(value: R) | Failure(error: E)

  /** A decoded JSON document. Python's `None` is `JNull`. Objects are keyed
      dictionaries; their insertion order is not modelled. */
  datatype Json =
    | JNull
    | JBool(b: bool)
    | JInt(i: int)
    | JString(s: string)
    | JArray(items: seq<Json>)
    | JObject(fields: map<string, Json>)

  /** Python truthiness: `None`, `False`, `0`, `""`, `[]` and `{}` are false. */
  predicate Falsy(j: Json) {
    match j
    case JNull => true
    case JBool(b) => !b
    case JInt(i) => i == 0
    case JString(s) => s == []
    case JArray(items) => items == []
    case JObject(fields) => fields == map[]
  }

  /** Python's `key in j` for a string key: dictionary membership, list element
      membership, substring test on a string; any other operand raises `TypeError`. */
  datatype Membership = Present | Absent | NotAContainer

  predicate OccursAt(needle: string, hay: string, k: int) {
    0 <= k <= |hay| - |needle| && hay[k..k + |needle|] == needle
  }

  predicate IsSubstring(needle: string, hay: string) {
    exists k | 0 <= k <= |hay| :: OccursAt(needle, hay, k)
  }

  function Contains(j: Json, key: string): (r: Membership)
    ensures r.NotAContainer? <==> (j.JNull? || j.JBool? || j.JInt?)
    ensures j.JObject? ==> (r.Present? <==> key in j.fields)
    ensures j.JArray? ==> (r.Present? <==> JString(key) in j.items)
    ensures j.JString? ==> (r.Present? <==> IsSubstring(key, j.s))
  {
    match j
    case JObject(fields) => if key in fields then Present else Absent
    case JArray(items) => if JString(key) in items then Present else Absent
    case JString(s) => if IsSubstring(key, s) then Present else Absent
    case _ => NotAContainer
  }

  /** Python's `j[key]` for a string key: succeeds only on a dictionary holding the
      key; a missing key raises `KeyError`, any other value raises `TypeError`. */
  function Index(j: Json, key: string): (r: Option<Json>)
    ensures r.Some? <==> j.JObject? && key in j.fields
    ensures r.Some? ==> r.value == j.fields[key]
  {
    if j.JObject? && key in j.fields then Some(j.fields[key]) else None
  }

  /** Testing `key in j` before reading `j[key]` is sound: a successful read
      implies the membership test passed, and on a dictionary the two agree. A
      list or string can pass the test and still fail the read. */
  lemma IndexAgreesWithContains(j: Json, key: string)
    ensures Index(j, key).Some? ==> Contains(j, key).Present?
    ensures j.JObject? ==> (Contains(j, key).Present? <==> Index(j, key).Some?)
    ensures j.JArray? && Contains(j, key).Present? ==> Index(j, key).None?
  {
  }

  function DigitChar(d: nat): (c: char)
    requires d < 10
    ensures '0' <= c <= '9'
  {
    "0123456789"[d]
  }

  function DigitValue(c: char): nat
    requires '0' <= c <= '9'
  {
    (c - '0') as nat
  }

  /** Decimal digits of `n`, most significant first, as Python's `str(n)` prints them. */
  function NatToDecimal(n: nat): (r: string)
    ensures |r| >= 1
    ensures forall k :: 0 <= k < |r| ==> '0' <= r[k] <= '9'
    ensures |r| > 1 ==> r[0] != '0'
  {
    if n < 10 then [DigitChar(n)] else NatToDecimal(n / 10) + [DigitChar(n % 10)]
  }

  /** The number a string of decimal digits denotes; the reading direction of `NatToDecimal`. */
  function DecimalValue(s: string): nat
    requires forall k :: 0 <= k < |s| ==> '0' <= s[k] <= '9'
  {
    if s == [] then 0 else DecimalValue(s[..|s| - 1]) * 10 + DigitValue(s[|s| - 1])
  }

  lemma {:induction false} DecimalRoundTrip(n: nat)
    ensures DecimalValue(NatToDecimal(n)) == n
  {
    if n >= 10 {
      var s := NatToDecimal(n);
      assert s[..|s| - 1] == NatToDecimal(n / 10);
      DecimalRoundTrip(n / 10);
    }
  }

  /** Python's `str(j)` (and so the text an f-string interpolates). Exact for
      `None`, booleans, integers and strings; lists and dictionaries are rendered
      as the placeholders `[...]` and `{...}`. */
  function Display(j: Json): string {
    match j
    case JNull => "None"
    case JBool(b) => if b then "True" else "False"
    case JInt(i) => if i < 0 then "-" + NatToDecimal(-i) else NatToDecimal(i)
    case JString(s) => s
    case JArray(_) => "[...]"
    case JObject(_) => "{...}"
  }

  /** `str()` of an integer reads back as that integer. */
  lemma DisplayIntRoundTrip(i: int)
    ensures var t := Display(JInt(i));
            && |t| >= 1
            && (i >= 0 ==> DecimalValue(t) == i)
            && (i < 0 ==> t[0] == '-' && DecimalValue(t[1..]) == -i)
  {
    if i >= 0 {
      DecimalRoundTrip(i);
    } else {
      var t := Display(JInt(i));
      assert t[1..] == NatToDecimal(-i);
      DecimalRoundTrip(-i);
    }
  }
}

=== FILE: pipe_client.dfy ===
/** The correlation state machine of `PipeJsonRpcSendAsync`: one call at a time,
    an expected message id, and a completion slot that only the response carrying
    that id can fill. Scheduling is replaced by an explicit sequence of events:
    a message handed over by the receive thread, the deadline of `wait_for`
    expiring, and the waiting `send_msg` task being resumed. */
module PipeClient {
  import opened JsonValue
  import opened Errors
  import opened Response
  import Codec

  /** `_fut_comm`: no future, a future not yet set, or a future set with a response. */
  datatype Future = NoFuture | Pending | Done(response: map<string, Json>)

  /** A client: `expectedId` is `_expected_msg_id`, `future` is `_fut_comm`, `call`
      is the request of the `send_msg` currently holding `_lock_comm` (`None` while
      the lock is free) and `sent` lists the messages written to the pipe. */
  datatype Client = Client(
    expectedId: Option<string>,
    future: Future,
    call: Option<map<string, Json>>,
    sent: seq<map<string, Json>>)

  /** How `_response_received` disposed of one incoming message. Every verdict
      except `Accepted` leaves the client untouched; `NotIndexable` and
      `AlreadyCompleted` are the cases where the handler task itself raises
      (`TypeError` on a non-dictionary, `InvalidStateError` on a future already set). */
  datatype Delivery =
    | Accepted
    | Unsolicited
    | MissingId
    | WrongId(received: Json)
    | NotIndexable
    | AlreadyCompleted

  /** Where a call stands after an event. */
  datatype Progress = Waiting | Finished(outcome: CallOutcome)

  datatype Event = Deliver(msg: Json) | Expire | Resume

  /** `__init__`: no call in flight and nothing written yet. */
  function NewClient(): (c: Client)
    ensures Idle(c) && Consistent(c) && c.sent == []
  {
    Client(None, NoFuture, None, [])
  }

  /** No call in flight: the lock is free and both fields are `None`. */
  predicate Idle(c: Client) {
    c.expectedId.None? && c.future.NoFuture? && c.call.None?
  }

  /** The state every reachable client is in: the expected id and the future exist
      exactly while a call holds the lock, the expected id is the id of that call's
      request, and a filled future holds a response carrying that id. */
  predicate Consistent(c: Client) {
    if c.call.None? then
      c.expectedId.None? && c.future.NoFuture?
    else
      && c.expectedId.Some?
      && !c.future.NoFuture?
      && "id" in c.call.value && c.call.value["id"] == JString(c.expectedId.value)
      && (c.future.Done? ==>
            "id" in c.future.response && c.future.response["id"] == JString(c.expectedId.value))
  }

  /** The `finally` clause of `send_msg`: both fields reset and the lock released. */
  function ClearCall(c: Client): (c': Client)
    ensures Idle(c') && Consistent(c')
    ensures c'.sent == c.sent
  {
    Client(None, NoFuture, None, c.sent)
  }

  /** `_response_received`: only a dictionary whose `id` equals the expected id
      completes a pending future; every other message is dropped. */
  function ResponseReceived(c: Client, msg: Json): (r: (Client, Delivery))
    requires Consistent(c)
    ensures r.1.Accepted? <==>
              && c.expectedId.Some? && c.future.Pending?
              && msg.JObject? && "id" in msg.fields && msg.fields["id"] == JString(c.expectedId.value)
    ensures r.1.Accepted? ==> r.0 == c.(future := Done(msg.fields))
    ensures !r.1.Accepted? ==> r.0 == c
    ensures r.1.Unsolicited? <==> c.expectedId.None?
    ensures Consistent(r.0)
  {
    if c.expectedId.None? then (c, Unsolicited)
    else
      match Contains(msg, "id")
      case NotAContainer => (c, NotIndexable)
      case Absent => (c, MissingId)
      case Present =>
        match Index(msg, "id")
        case None => (c, NotIndexable)
        case Some(id) =>
          if id != JString(c.expectedId.value) then (c, WrongId(id))
          else if c.future.Done? then (c, AlreadyCompleted)
          else (c.(future := Done(msg.fields)), Accepted)
  }

  /** The part of `send_msg` that runs before its first suspension: build the
      request, write it, and either finish (notification, or a write that raised)
      or record the expected id and a fresh future. The lock is a precondition:
      a call starts only from an idle client. `writeError` is the text of the
      exception the pipe write raised, if it did. */
  function BeginSend(c: Client, methodName: string, params: Json, notification: bool,
                     freshId: string, writeError: Option<string>): (r: (Client, Progress))
    requires Idle(c)
    ensures Consistent(r.0)
    ensures r.1.Finished? ==> Idle(r.0)
    ensures writeError.Some? ==> r == (c, Finished(Raised(SendFailed(writeError.value))))
    ensures writeError.None? ==>
              && |r.0.sent| == |c.sent| + 1 && r.0.sent[..|c.sent|] == c.sent
              && r.0.sent[|c.sent|] == Codec.FormatJsonRpcMsg(methodName, params, notification, freshId)
    ensures writeError.None? && notification ==> r.1 == Finished(Returned(JNull))
    ensures writeError.None? && !notification ==>
              && r.1.Waiting?
              && r.0.expectedId == Some(freshId)
              && r.0.future.Pending?
              && r.0.call == Some(r.0.sent[|c.sent|])
  {
    var msg := Codec.FormatJsonRpcMsg(methodName, params, notification, freshId);
    if writeError.Some? then (c, Finished(Raised(SendFailed(writeError.value))))
    else if notification then (c.(sent := c.sent + [msg]), Finished(Returned(JNull)))
    else (Client(Some(freshId), Pending, Some(msg), c.sent + [msg]), Waiting)
  }

  /** The deadline of `wait_for` expires: a future still pending becomes
      `CommTimeoutError`; a future already set wins and the call goes on to
      read it. */
  function OnDeadline(c: Client): (r: (Client, Progress))
    requires Consistent(c) && c.call.Some?
    ensures Consistent(r.0) && r.0.sent == c.sent
    ensures c.future.Pending? ==> r == (ClearCall(c), Finished(Raised(PipeTimeout(c.call.value))))
    ensures c.future.Done? ==> r == (c, Waiting)
  {
    if c.future.Pending? then (ClearCall(c), Finished(Raised(PipeTimeout(c.call.value))))
    else (c, Waiting)
  }

  /** The `send_msg` task resumes: with the future set it interprets the response
      and clears the call; otherwise it keeps waiting. */
  function OnResume(c: Client): (r: (Client, Progress))
    requires Consistent(c) && c.call.Some?
    ensures Consistent(r.0) && r.0.sent == c.sent
    ensures c.future.Done? ==>
              r == (ClearCall(c), Finished(InterpretResponse(c.call.value, c.future.response)))
    ensures c.future.Pending? ==> r == (c, Waiting)
  {
    if c.future.Done? then (ClearCall(c), Finished(InterpretResponse(c.call.value, c.future.response)))
    else (c, Waiting)
  }

  /** One event while a call holds the lock. */
  function Step(c: Client, e: Event): (r: (Client, Progress))
    requires Consistent(c) && c.call.Some?
    ensures Consistent(r.0) && r.0.sent == c.sent
    ensures r.1.Finished? ==> Idle(r.0) && !e.Deliver?
    ensures r.1.Waiting? ==> r.0.call == c.call && r.0.expectedId == c.expectedId
    ensures e.Deliver? ==> r.0 == ResponseReceived(c, e.msg).0
    ensures e.Expire? && c.future.Pending? ==> r.1 == Finished(Raised(PipeTimeout(c.call.value)))
    ensures e.Resume? && c.future.Done? ==>
              r.1 == Finished(InterpretResponse(c.call.value, c.future.response))
    ensures (e.Expire? && c.future.Done?) || (e.Resume? && c.future.Pending?) ==> r == (c, Waiting)
  {
    match e
    case Deliver(msg) => (ResponseReceived(c, msg).0, Waiting)
    case Expire => OnDeadline(c)
    case Resume => OnResume(c)
  }

  /** The result of driving a call through a sequence of events: the client, where
      the call stands, and how many events were consumed. */
  datatype Run = Run(client: Client, progress: Progress, steps: nat)

  /** Feeds events to the call in flight until it finishes or the events run out. */
  function Drive(c: Client, events: seq<Event>): (r: Run)
    requires Consistent(c) && c.call.Some?
    ensures Consistent(r.client) && r.client.sent == c.sent
    ensures r.steps <= |events|
    ensures r.progress.Finished? ==> Idle(r.client) && r.steps >= 1
    ensures r.progress.Waiting? ==>
              r.client.call == c.call && r.client.expectedId == c.expectedId && r.steps == |events|
    decreases |events|
  {
    if events == [] then Run(c, Waiting, 0)
    else
      var (c1, p1) := Step(c, events[0]);
      if p1.Finished? then Run(c1, p1, 1)
      else
        var rest := Drive(c1, events[1..]);
        rest.(steps := rest.steps + 1)
  }

  /** `send_msg` end to end: begin, then drive the events until the call finishes. */
  function SendMsg(c: Client, methodName: string, params: Json, notification: bool,
                   freshId: string, writeError: Option<string>, events: seq<Event>): (r: Run)
    requires Idle(c)
    ensures Consistent(r.client)
    ensures r.progress.Finished? ==> Idle(r.client)
    ensures r.progress.Waiting? ==>
              !notification && writeError.None? && r.client.expectedId == Some(freshId)
    ensures notification ==>
              && r.progress.Finished? && r.client.expectedId.None?
              && (writeError.None? ==> r.progress.outcome == Returned(JNull))
    ensures writeError.Some? ==> r == Run(c, Finished(Raised(SendFailed(writeError.value))), 0)
    ensures r.progress.Finished? && r.progress.outcome.Raised? && r.progress.outcome.failure.PipeTimeout? ==>
              r.progress.outcome.failure.request
              == Codec.FormatJsonRpcMsg(methodName, params, notification, freshId)
  {
    var (c1, p1) := BeginSend(c, methodName, params, notification, freshId, writeError);
    if p1.Finished? then Run(c1, p1, 0)
    else
      TimeoutMeansNoReply(c1, events);
      Drive(c1, events)
  }

  /** The message event that would complete a call expecting `id`. */
  predicate MatchingDelivery(e: Event, id: string) {
    e.Deliver? && e.msg.JObject? && "id" in e.msg.fields && e.msg.fields["id"] == JString(id)
  }

  predicate IsTimeout(o: CallOutcome) {
    o.Raised? && o.failure.PipeTimeout?
  }

  /** A call times out only if no response carrying its id arrived before the
      deadline, and it then raises `CommTimeoutError` naming its own request. */
  lemma {:induction false} TimeoutMeansNoReply(c: Client, events: seq<Event>)
    requires Consistent(c) && c.call.Some?
    ensures var r := Drive(c, events);
            r.progress.Finished? && IsTimeout(r.progress.outcome) ==>
              && c.future.Pending?
              && r.progress.outcome.failure.request == c.call.value
              && events[r.steps - 1].Expire?
              && forall k :: 0 <= k < r.steps ==> !MatchingDelivery(events[k], c.expectedId.value)
    decreases |events|
  {
    if events != [] {
      var (c1, p1) := Step(c, events[0]);
      if p1.Finished? {
      } else {
        TimeoutMeansNoReply(c1, events[1..]);
        var r := Drive(c, events);
        var rest := Drive(c1, events[1..]);
        assert r == rest.(steps := rest.steps + 1);
        if r.progress.Finished? && IsTimeout(r.progress.outcome) {
          assert c1.future.Pending?;
          assert c1 == c by {
            if events[0].Deliver? {
              assert !ResponseReceived(c, events[0].msg).1.Accepted?;
            }
          }
          forall k | 0 <= k < r.steps
            ensures !MatchingDelivery(events[k], c.expectedId.value)
          {
            if k > 0 {
              assert events[k] == events[1..][k - 1];
            }
          }
        }
      }
    }
  }

  /** Every other finished call returns or raises exactly what the response that
      completed it says: the response already in the future, or else the FIRST
      incoming message carrying the expected id. */
  lemma {:induction false} OutcomeFromFirstMatchingReply(c: Client, events: seq<Event>)
    requires Consistent(c) && c.call.Some?
    ensures var r := Drive(c, events);
            var id := c.expectedId.value;
            r.progress.Finished? && !IsTimeout(r.progress.outcome) ==>
              || (c.future.Done? && r.progress.outcome == InterpretResponse(c.call.value, c.future.response))
              || (&& c.future.Pending?
                  && exists k :: && 0 <= k < r.steps
                                 && MatchingDelivery(events[k], id)
                                 && (forall j :: 0 <= j < k ==> !MatchingDelivery(events[j], id))
                                 && r.progress.outcome == InterpretResponse(c.call.value, events[k].msg.fields))
    decreases |events|
  {
    var r := Drive(c, events);
    var id := c.expectedId.value;
    if events != [] && r.progress.Finished? && !IsTimeout(r.progress.outcome) {
      var (c1, p1) := Step(c, events[0]);
      if p1.Finished? {
        assert events[0].Resume? && c.future.Done?;
      } else {
        OutcomeFromFirstMatchingReply(c1, events[1..]);
        var rest := Drive(c1, events[1..]);
        assert r == rest.(steps := rest.steps + 1);
        if c.future.Done? {
          assert c1 == c by {
            if events[0].Deliver? {
              assert !ResponseReceived(c, events[0].msg).1.Accepted?;
            }
          }
        } else if MatchingDelivery(events[0], id) {
          assert c1.future == Done(events[0].msg.fields);
          assert r.progress.outcome == InterpretResponse(c.call.value, events[0].msg.fields);
          assert r.steps > 0;
        } else {
          assert c1 == c by {
            if events[0].Deliver? {
              assert !ResponseReceived(c, events[0].msg).1.Accepted?;
            }
          }
          var k :| && 0 <= k < rest.steps
                   && MatchingDelivery(events[1..][k], id)
                   && (forall j :: 0 <= j < k ==> !MatchingDelivery(events[1..][j], id))
                   && rest.progress.outcome == InterpretResponse(c.call.value, events[1..][k].msg.fields);
          assert events[k + 1] == events[1..][k];
          forall j | 0 <= j < k + 1
            ensures !MatchingDelivery(events[j], id)
          {
            if j > 0 {
              assert events[j] == events[1..][j - 1];
            }
          }
        }
      }
    }
  }

  /** Once a call has finished, a response that arrives late is dropped as
      unsolicited and the next call starts from a clean state. */
  lemma LateResponseDiscarded(c: Client, methodName: string, params: Json, notification: bool,
                              freshId: string, writeError: Option<string>, events: seq<Event>, late: Json)
    requires Idle(c)
    ensures var r := SendMsg(c, methodName, params, notification, freshId, writeError, events);
            r.progress.Finished? ==> ResponseReceived(r.client, late) == (r.client, Unsolicited)
  {
  }

  /** A call whose future is still pending ends at its first deadline with
      `CommTimeoutError` naming its request, unless a response carrying its id
      arrives first. */
  lemma {:induction false} DeadlineEndsPendingCall(c: Client, events: seq<Event>, k: nat)
    requires Consistent(c) && c.call.Some? && c.future.Pending?
    requires k < |events| && events[k].Expire?
    requires forall j :: 0 <= j < k ==> !MatchingDelivery(events[j], c.expectedId.value)
    ensures var r := Drive(c, events);
            r.progress == Finished(Raised(PipeTimeout(c.call.value))) && r.steps <= k + 1
    decreases k
  {
    var (c1, p1) := Step(c, events[0]);
    if k > 0 {
      assert !MatchingDelivery(events[0], c.expectedId.value);
      if events[0].Expire? {
      } else {
        assert p1.Waiting? && c1 == c by {
          if events[0].Deliver? {
            assert !ResponseReceived(c, events[0].msg).1.Accepted?;
          }
        }
        forall j | 0 <= j < k - 1
          ensures !MatchingDelivery(events[1..][j], c.expectedId.value)
        {
          assert events[1..][j] == events[j + 1];
        }
        DeadlineEndsPendingCall(c1, events[1..], k - 1);
      }
    }
  }

  /** Once the future holds a response, the next resume returns or raises what
      that response says; no deadline or late message can change it. */
  lemma {:induction false} ResumeReadsSetFuture(c: Client, events: seq<Event>, m: nat)
    requires Consistent(c) && c.call.Some? && c.future.Done?
    requires m < |events| && events[m].Resume?
    ensures var r := Drive(c, events);
            r.progress == Finished(InterpretResponse(c.call.value, c.future.response)) && r.steps <= m + 1
    decreases m
  {
    var (c1, p1) := Step(c, events[0]);
    if !events[0].Resume? {
      assert p1.Waiting? && c1 == c by {
        if events[0].Deliver? {
          assert !ResponseReceived(c, events[0].msg).1.Accepted?;
        }
      }
      assert events[1..][m - 1] == events[m];
      ResumeReadsSetFuture(c1, events[1..], m - 1);
    }
  }

  /** The first response carrying the expected id, followed by a resume, is what
      the call returns or raises, provided the deadline did not pass before that
      response arrived. */
  lemma {:induction false} ReplyThenResumeReturnsIt(c: Client, events: seq<Event>, k: nat, m: nat)
    requires Consistent(c) && c.call.Some? && c.future.Pending?
    requires k < m < |events| && events[m].Resume?
    requires MatchingDelivery(events[k], c.expectedId.value)
    requires forall j :: 0 <= j < k ==> !MatchingDelivery(events[j], c.expectedId.value) && !events[j].Expire?
    ensures var r := Drive(c, events);
            r.progress == Finished(InterpretResponse(c.call.value, events[k].msg.fields)) && r.steps <= m + 1
    decreases k
  {
    var (c1, p1) := Step(c, events[0]);
    if k == 0 {
      assert c1 == c.(future := Done(events[0].msg.fields));
      assert events[1..][m - 1] == events[m];
      ResumeReadsSetFuture(c1, events[1..], m - 1);
    } else {
      assert p1.Waiting? && c1 == c by {
        if events[0].Deliver? {
          assert !ResponseReceived(c, events[0].msg).1.Accepted?;
        }
      }
      forall j | 0 <= j < k - 1
        ensures !MatchingDelivery(events[1..][j], c.expectedId.value) && !events[1..][j].Expire?
      {
        assert events[1..][j] == events[j + 1];
      }
      assert events[1..][k - 1] == events[k] && events[1..][m - 1] == events[m];
      ReplyThenResumeReturnsIt(c1, events[1..], k - 1, m - 1);
    }
  }

  /** `send_msg` end to end, for a request that is written: with no response
      carrying its id before the deadline it raises `CommTimeoutError` naming the
      request; with such a response before the deadline and a resume after it,
      it returns or raises what that response says. */
  lemma SendMsgCompletes(c: Client, methodName: string, params: Json, freshId: string,
                         events: seq<Event>, k: nat, m: nat)
    requires Idle(c)
    requires k < |events| && m < |events|
    ensures var r := SendMsg(c, methodName, params, false, freshId, None, events);
            var request := Codec.FormatJsonRpcMsg(methodName, params, false, freshId);
            && (events[k].Expire? && (forall j :: 0 <= j < k ==> !MatchingDelivery(events[j], freshId)) ==>
                  r.progress == Finished(Raised(PipeTimeout(request))))
            && (k < m && events[m].Resume? && MatchingDelivery(events[k], freshId)
                && (forall j :: 0 <= j < k ==> !MatchingDelivery(events[j], freshId) && !events[j].Expire?) ==>
                  r.progress == Finished(InterpretResponse(request, events[k].msg.fields)))
  {
    var (c1, p1) := BeginSend(c, methodName, params, false, freshId, None);
    if events[k].Expire? && (forall j :: 0 <= j < k ==> !MatchingDelivery(events[j], freshId)) {
      DeadlineEndsPendingCall(c1, events, k);
    }
    if k < m && events[m].Resume? && MatchingDelivery(events[k], freshId)
       && (forall j :: 0 <= j < k ==> !MatchingDelivery(events[j], freshId) && !events[j].Expire?) {
      ReplyThenResumeReturnsIt(c1, events, k, m);
    }
  }
}

=== FILE: receive_loop.dfy ===
/** The receiving thread shared by `PipeJsonRpcReceive` and `PipeJsonRpcSendAsync`:
    the idempotent start, the stop flag, and the polling loop. The pipe is
    replaced by the sequence of outcomes the loop's iterations observe. */
module ReceiveLoop {

  /** `_thread_running` together with the number of receiving threads launched so far. */
  datatype Receiver = Receiver(running: bool, launched: nat)

  /** `_start_conn_thread`: sets the flag and launches a thread only if the flag
      was clear; reports whether it launched one. */
  function Start(r: Receiver): (res: (Receiver, bool))
    ensures res.0.running
    ensures res.1 <==> !r.running
    ensures res.0.launched == r.launched + (if res.1 then 1 else 0)
  {
    if r.running then (r, false) else (Receiver(true, r.launched + 1), true)
  }

  /** `stop`: clears the flag; the thread notices at the end of its current iteration. */
  function Stop(r: Receiver): (r': Receiver)
    ensures !r'.running && r'.launched == r.launched
  {
    r.(running := false)
  }

  /** Starting twice is starting once. */
  lemma StartIdempotent(r: Receiver)
    ensures var (once, _) := Start(r);
            Start(once) == (once, false)
  {
  }

  /** `stop` then `start` always launches a new thread, whatever the state of the
      one launched before: the flag is all `start` consults. */
  lemma RestartLaunchesAnotherThread(r: Receiver)
    ensures var (after, launched) := Start(Stop(r));
            launched && after.running && after.launched == r.launched + 1
  {
  }

  /** One poll of the pipe: nothing within the polling timeout, a message read
      (and decoded or handled), or a step that raised. `Broken` stands both for
      a read, decode or handling step that raised (caught and logged before the
      loop breaks) and for `poll` itself raising, which sits outside the `try`
      and ends the thread uncaught; either way the loop stops there. */
  datatype Poll<M> = NoData | Got(msg: M) | Broken(text: string)

  /** What one iteration observes: its poll outcome and the value of the running
      flag read at its end. */
  datatype Iteration<M> = Iteration(poll: Poll<M>, runningAfter: bool)

  /** Why the loop ended: an exception, the flag seen clear, or (in the model only)
      no further iterations supplied. */
  datatype Exit = Faulted(text: string) | Stopped | OutOfInput

  /** The messages the iterations read, in order. */
  function Messages<M>(its: seq<Iteration<M>>): seq<M> {
    if its == [] then []
    else Messages(its[..|its| - 1]) + (if its[|its| - 1].poll.Got? then [its[|its| - 1].poll.msg] else [])
  }

  /** An iteration after which the loop goes round again. */
  predicate Continues<M>(it: Iteration<M>) {
    !it.poll.Broken? && it.runningAfter
  }

  /** `_pipe_receive` / `_receive_conn_thread`: hand over every message read, stop
      at the first exception, otherwise stop after the iteration whose flag
      reading is false (that iteration's message is still handed over). */
  method RunLoop<M>(its: seq<Iteration<M>>) returns (delivered: seq<M>, exit: Exit, count: nat)
    ensures count <= |its|
    ensures delivered == Messages(its[..count])
    ensures exit.OutOfInput? ==> count == |its| && forall k :: 0 <= k < count ==> Continues(its[k])
    ensures !exit.OutOfInput? ==> count >= 1 && forall k :: 0 <= k < count - 1 ==> Continues(its[k])
    ensures exit.Faulted? ==> its[count - 1].poll == Broken(exit.text)
    ensures exit.Stopped? ==> !its[count - 1].poll.Broken? && !its[count - 1].runningAfter
  {
    delivered := [];
    exit := OutOfInput;
    count := 0;
    while count < |its|
      invariant count <= |its|
      invariant delivered == Messages(its[..count])
      invariant forall k :: 0 <= k < count ==> Continues(its[k])
    {
      var it := its[count];
      assert its[..count + 1][..count] == its[..count];
      if it.poll.Broken? {
        exit := Faulted(it.poll.text);
        count := count + 1;
        return;
      }
      if it.poll.Got? {
        delivered := delivered + [it.poll.msg];
      }
      count := count + 1;
      if !it.runningAfter {
        exit := Stopped;
        return;
      }
    }
    assert its[..count] == its;
  }
}

=== FILE: response.dfy ===
/** How the pipe client turns the response that answered its request into the
    value `send_msg` returns or the exception it raises. */
module Response {
  import opened JsonValue
  import opened Errors
  import Codec

  /** What a call to `send_msg` ends with. */
  datatype CallOutcome = Returned(value: Json) | Raised(failure: CommFailure)

  /** The shape the reading of an error object succeeds on: a dictionary with
      `code` and `message`, whose `data`, when present, is a dictionary with
      `type` and `message`. */
  predicate WellFormedError(err: Json) {
    && err.JObject?
    && "code" in err.fields
    && "message" in err.fields
    && ("data" in err.fields ==>
          var data := err.fields["data"];
          data.JObject? && "type" in data.fields && "message" in data.fields)
  }

  /** Reads `response["error"]` into a `CommJsonRpcError`, in the order the source
      indexes it; a failed lookup yields the key whose `KeyError` or `TypeError`
      escapes. */
  function ErrorFromObject(err: Json): (r: Result<CommJsonRpcError, string>)
    ensures r.Success? <==> WellFormedError(err)
    ensures r.Success? ==> r.value.errorCode == err.fields["code"]
    ensures r.Success? && "data" in err.fields ==>
              var data := err.fields["data"];
              && r.value.errorType == data.fields["type"]
              && r.value.message == Display(err.fields["message"]) + ": " + Display(data.fields["message"])
    ensures r.Success? && "data" !in err.fields ==>
              && r.value.errorType == JString(GenericErrorType)
              && r.value.message == Display(err.fields["message"])
    ensures r.Failure? ==> r.error in {"code", "type", "message"}
    ensures !(err.JObject? && "code" in err.fields) ==> r == Failure("code")
    ensures && err.JObject? && "code" in err.fields && "data" in err.fields
            && !(err.fields["data"].JObject? && "type" in err.fields["data"].fields)
            ==> r == Failure("type")
    ensures r.Failure? && r.error != "code" && r.error != "type" ==> r.error == "message"
  {
    match Index(err, "code")
    case None => Failure("code")
    case Some(code) =>
      if "data" in err.fields then
        var data := err.fields["data"];
        match Index(data, "type")
        case None => Failure("type")
        case Some(errorType) =>
          match Index(err, "message")
          case None => Failure("message")
          case Some(message) =>
            match Index(data, "message")
            case None => Failure("message")
            case Some(detail) =>
              Success(CommJsonRpcError(Display(message) + ": " + Display(detail), code, errorType))
      else
        match Index(err, "message")
        case None => Failure("message")
        case Some(message) =>
          Success(CommJsonRpcError(Display(message), code, JString(GenericErrorType)))
  }

  /** The response branch of `send_msg`: `result` wins, even beside `error`;
      otherwise `error` becomes a `CommJsonRpcError`; otherwise the response is
      malformed. */
  function InterpretResponse(request: map<string, Json>, response: map<string, Json>): (r: CallOutcome)
    ensures r.Returned? <==> "result" in response
    ensures r.Returned? ==> r.value == response["result"]
    ensures r.Raised? ==> r.failure.RpcFailure? || r.failure.FieldLookup? || r.failure.MalformedResponse?
    ensures r.Raised? && r.failure.RpcFailure? <==>
              "result" !in response && "error" in response && WellFormedError(response["error"])
    ensures r.Raised? && r.failure.RpcFailure? ==>
              && r.failure.error == ErrorFromObject(response["error"]).value
              && r.failure.error.errorCode == response["error"].fields["code"]
    ensures r.Raised? && r.failure.FieldLookup? <==>
              "result" !in response && "error" in response && !WellFormedError(response["error"])
    ensures r.Raised? && r.failure.FieldLookup? ==>
              r.failure.key == ErrorFromObject(response["error"]).error
    ensures r.Raised? && r.failure.MalformedResponse? <==> "result" !in response && "error" !in response
    ensures r.Raised? && r.failure.MalformedResponse? ==> r.failure == MalformedResponse(request, response)
  {
    if "result" in response then Returned(response["result"])
    else if "error" in response then
      match ErrorFromObject(response["error"])
      case Success(e) => Raised(RpcFailure(e))
      case Failure(key) => Raised(FieldLookup(key))
    else Raised(MalformedResponse(request, response))
  }

  /** A successful response as the JSON-RPC peer writes it. */
  function ResultResponse(id: string, value: Json): map<string, Json> {
    map["jsonrpc" := JString(Codec.ProtocolVersion), "result" := value, "id" := JString(id)]
  }

  /** An error response as the JSON-RPC peer writes it; `data` carries the
      failure's type and text when the handler itself raised. */
  function ErrorResponse(id: string, code: int, message: string, data: Option<(string, string)>)
    : map<string, Json>
  {
    var base := map["code" := JInt(code), "message" := JString(message)];
    var err := if data.Some? then
                 base["data" := JObject(map["type" := JString(data.value.0),
                                            "message" := JString(data.value.1)])]
               else base;
    map["jsonrpc" := JString(Codec.ProtocolVersion), "error" := JObject(err), "id" := JString(id)]
  }

  /** The three wire shapes of a response map onto the three outcomes. */
  lemma ResponseShapes(request: map<string, Json>, id: string, value: Json,
                       code: int, message: string, errorType: string, detail: string)
    ensures InterpretResponse(request, ResultResponse(id, value)) == Returned(value)
    ensures InterpretResponse(request, ErrorResponse(id, code, message, Some((errorType, detail))))
         == Raised(RpcFailure(CommJsonRpcError(message + ": " + detail, JInt(code), JString(errorType))))
    ensures InterpretResponse(request, ErrorResponse(id, code, message, None))
         == Raised(RpcFailure(CommJsonRpcError(message, JInt(code), JString(GenericErrorType))))
    ensures InterpretResponse(request, map["id" := JString(id)])
         == Raised(MalformedResponse(request, map["id" := JString(id)]))
  {
  }
}

=== FILE: zmq_client.dfy ===
/** The request/reply client over ZeroMQ (`ZMQCommSendAsync`) and the one-shot
    helper built on it (`zmq_single_request`). The socket is represented by a
    generation counter that grows each time it is closed and a reopen is
    attempted; one exchange on it is an abstract outcome. */
module ZmqClient {
  import opened JsonValue
  import opened Errors

  const DefaultAddress := "tcp://localhost:5555"
  const DefaultRecvTimeoutMs := 2000
  const DefaultSendTimeoutMs := 500
  const CommErrorPrefix := "ZMQ communication error: "

  /** A client: the server address, the socket options, the error policy, the
      socket generation, and every request it tried to send. */
  datatype Client = Client(
    address: string,
    recvTimeoutMs: int,
    sendTimeoutMs: int,
    raiseTimeoutExceptions: bool,
    generation: nat,
    attempts: seq<Json>)

  /** One send/receive on the socket: a reply, or the text of the exception raised
      by either half (usually a timeout). */
  datatype Exchange = Replied(reply: Json) | Failed(text: string)

  /** What opening a socket (`_zmq_socket_open`) comes to: `connect` returned a
      false value, it returned a true value, or `ctx.socket`/`connect` raised a
      `ZMQError` with the given text. */
  datatype Connect = Connected | ConnectRefused | ConnectRaised(text: string)

  /** `zmq_server_address or "tcp://localhost:5555"`. */
  function ResolveAddress(address: Option<string>): string {
    if address.Some? && address.value != "" then address.value else DefaultAddress
  }

  /** The exception opening a socket to `address` lets escape, if any. */
  function OpenFailure(address: string, connect: Connect): (r: Option<CommFailure>)
    ensures r.None? <==> connect.Connected?
    ensures connect.ConnectRefused? ==> r == Some(ConnectFailed(address))
    ensures connect.ConnectRaised? ==> r == Some(SocketError(connect.text))
  {
    match connect
    case Connected => None
    case ConnectRefused => Some(ConnectFailed(address))
    case ConnectRaised(text) => Some(SocketError(text))
  }

  /** The constructor: resolves the address and opens the first socket; an
      exception from opening it escapes the constructor. */
  function NewClient(address: Option<string>, recvTimeoutMs: int, sendTimeoutMs: int,
                     raiseTimeoutExceptions: bool, connect: Connect): (r: Result<Client, CommFailure>)
    ensures r.Success? <==> connect.Connected?
    ensures r.Success? && address.Some? && address.value != "" ==> r.value.address == address.value
    ensures r.Success? && (address.None? || address.value == "") ==> r.value.address == DefaultAddress
    ensures r.Success? ==>
              && r.value.generation == 0 && r.value.attempts == []
              && r.value.recvTimeoutMs == recvTimeoutMs && r.value.sendTimeoutMs == sendTimeoutMs
              && r.value.raiseTimeoutExceptions == raiseTimeoutExceptions
    ensures connect.ConnectRefused? ==> r == Failure(ConnectFailed(ResolveAddress(address)))
    ensures connect.ConnectRaised? ==> r == Failure(SocketError(connect.text))
  {
    var a := ResolveAddress(address);
    match OpenFailure(a, connect)
    case None => Success(Client(a, recvTimeoutMs, sendTimeoutMs, raiseTimeoutExceptions, 0, []))
    case Some(f) => Failure(f)
  }

  /** `_create_msg`: the request carries the method name and the parameters. */
  function CreateMsg(methodName: string, params: Json): (msg: Json)
    ensures msg.JObject? && msg.fields.Keys == {"method", "params"}
    ensures msg.fields["method"] == JString(methodName) && msg.fields["params"] == params
  {
    JObject(map["method" := JString(methodName), "params" := params])
  }

  /** The reply `send_message` returns instead of raising when the policy flag is off. */
  function FailureReply(text: string): Json {
    JObject(map["success" := JBool(false), "msg" := JString(CommErrorPrefix + text)])
  }

  /** `send_message`: falsy parameters become `{}`; on a failed exchange the socket
      is closed and reopened (`reopen` says how the reopening went, and an
      exception from it escapes), then the failure is raised as
      `CommTimeoutError` or returned as `{"success": False, "msg": ...}`
      according to the policy flag. */
  function SendMessage(c: Client, methodName: string, params: Json, exchange: Exchange,
                       reopen: Connect): (r: (Client, Result<Json, CommFailure>))
    ensures var sentParams := if Falsy(params) then JObject(map[]) else params;
            r.0.attempts == c.attempts + [CreateMsg(methodName, sentParams)]
    ensures r.0 == c.(attempts := r.0.attempts, generation := r.0.generation)
    ensures r.0.generation == c.generation + (if exchange.Failed? then 1 else 0)
    ensures exchange.Replied? ==> r.1 == Success(exchange.reply)
    ensures exchange.Failed? && reopen.ConnectRefused? ==> r.1 == Failure(ConnectFailed(c.address))
    ensures exchange.Failed? && reopen.ConnectRaised? ==> r.1 == Failure(SocketError(reopen.text))
    ensures exchange.Failed? && reopen.Connected? && c.raiseTimeoutExceptions ==>
              r.1 == Failure(ZmqTimeout(CommErrorPrefix + exchange.text))
    ensures exchange.Failed? && reopen.Connected? && !c.raiseTimeoutExceptions ==>
              r.1 == Success(FailureReply(exchange.text))
    ensures r.1.Failure? <==> exchange.Failed? && (c.raiseTimeoutExceptions || !reopen.Connected?)
  {
    var sentParams := if Falsy(params) then JObject(map[]) else params;
    var c1 := c.(attempts := c.attempts + [CreateMsg(methodName, sentParams)]);
    match exchange
    case Replied(reply) => (c1, Success(reply))
    case Failed(text) =>
      var c2 := c1.(generation := c1.generation + 1);
      match OpenFailure(c.address, reopen)
      case Some(f) => (c2, Failure(f))
      case None =>
        if c.raiseTimeoutExceptions then (c2, Failure(ZmqTimeout(CommErrorPrefix + text)))
        else (c2, Success(FailureReply(text)))
  }

  /** Absent or empty parameters of any kind (`None`, `[]`, `""`, `0`, `False`)
      are sent as `{}`; anything else is sent unchanged. */
  lemma SentParamsNormalised(c: Client, methodName: string, params: Json, exchange: Exchange,
                             reopen: Connect)
    ensures var sent := SendMessage(c, methodName, params, exchange, reopen).0.attempts[|c.attempts|];
            && sent.fields["method"] == JString(methodName)
            && (sent.fields["params"] == JObject(map[]) <==> Falsy(params))
            && (!Falsy(params) ==> sent.fields["params"] == params)
  {
  }

  /** The body of `zmq_single_request` for a client built with the given policy
      flag: any exception (the runner's own, one from opening the socket, or one
      `send_message` raises) becomes `(None, str(ex))`. */
  function RequestOnce(raiseTimeouts: bool, methodName: string, params: Json, address: Option<string>,
                       connect: Connect, exchange: Exchange, reopen: Connect,
                       runFailure: Option<string>): (r: (Json, string))
    ensures runFailure.Some? ==> r == (JNull, runFailure.value)
  {
    if runFailure.Some? then (JNull, runFailure.value)
    else
      match NewClient(address, DefaultRecvTimeoutMs, DefaultSendTimeoutMs, raiseTimeouts, connect)
      case Failure(f) => (JNull, FailureText(f))
      case Success(c) =>
        match SendMessage(c, methodName, params, exchange, reopen).1
        case Success(reply) => (reply, "")
        case Failure(f) => (JNull, FailureText(f))
  }

  /** `zmq_single_request` as written: it never raises, and builds its client with
      the default policy (`raise_timeout_exceptions=False`). `runFailure` is the
      text of an exception raised by the event-loop runner itself, if any. */
  function SingleRequest(methodName: string, params: Json, address: Option<string>,
                         connect: Connect, exchange: Exchange, reopen: Connect,
                         runFailure: Option<string>): (r: (Json, string))
    ensures runFailure.Some? ==> r == (JNull, runFailure.value)
    ensures runFailure.None? && connect.ConnectRefused? ==>
              r == (JNull, "Failed to connect to the server '" + ResolveAddress(address) + "'")
    ensures runFailure.None? && connect.ConnectRaised? ==> r == (JNull, connect.text)
    ensures runFailure.None? && connect.Connected? && exchange.Replied? ==> r == (exchange.reply, "")
    ensures runFailure.None? && connect.Connected? && exchange.Failed? && reopen.Connected? ==>
              r == (FailureReply(exchange.text), "")
    ensures runFailure.None? && connect.Connected? && exchange.Failed? && reopen.ConnectRefused? ==>
              r == (JNull, "Failed to connect to the server '" + ResolveAddress(address) + "'")
    ensures runFailure.None? && connect.Connected? && exchange.Failed? && reopen.ConnectRaised? ==>
              r == (JNull, reopen.text)
  {
    RequestOnce(false, methodName, params, address, connect, exchange, reopen, runFailure)
  }

  /** The error text of `zmq_single_request` is empty exactly when no exception
      occurred (given that every exception involved has a text): a failed
      exchange alone is reported inside the returned message, not as an error. */
  lemma SingleRequestErrorIffException(methodName: string, params: Json, address: Option<string>,
                                       connect: Connect, exchange: Exchange, reopen: Connect,
                                       runFailure: Option<string>)
    requires runFailure.Some? ==> runFailure.value != ""
    requires connect.ConnectRaised? ==> connect.text != ""
    requires reopen.ConnectRaised? ==> reopen.text != ""
    ensures var (msg, err) := SingleRequest(methodName, params, address, connect, exchange,
                                            reopen, runFailure);
            && (err == "" <==> runFailure.None? && connect.Connected? && (exchange.Replied? || reopen.Connected?))
            && (err != "" ==> msg == JNull)
  {
  }

  /** The documented promise of `zmq_single_request` fails on a plain timeout:
      the message is the failure dictionary, not `None`, and the error text is
      empty. */
  lemma SingleRequestHidesCommunicationError(methodName: string, params: Json, address: Option<string>,
                                             text: string)
    ensures var (msg, err) := SingleRequest(methodName, params, address, Connected, Failed(text),
                                            Connected, None);
            && msg != JNull && msg.JObject? && msg.fields["success"] == JBool(false)
            && err == ""
  {
  }

  /** `zmq_single_request` as its documentation describes it: the client raises
      on a communication error, so a timeout gives `None` and its text. */
  function IntendedSingleRequest(methodName: string, params: Json, address: Option<string>,
                                 connect: Connect, exchange: Exchange, reopen: Connect,
                                 runFailure: Option<string>): (r: (Json, string))
    ensures runFailure.None? && connect.Connected? && exchange.Replied? ==> r == (exchange.reply, "")
    ensures runFailure.None? && connect.Connected? && exchange.Failed? && reopen.Connected? ==>
              r == (JNull, CommErrorPrefix + exchange.text)
  {
    RequestOnce(true, methodName, params, address, connect, exchange, reopen, runFailure)
  }

  /** In the intended variant, the message is `None` and the error text is
      non-empty exactly when communication failed (every exception involved
      having a text); otherwise the text is empty and the message is the reply. */
  lemma IntendedSingleRequestReportsErrors(methodName: string, params: Json, address: Option<string>,
                                           connect: Connect, exchange: Exchange, reopen: Connect,
                                           runFailure: Option<string>)
    requires runFailure.Some? ==> runFailure.value != ""
    requires connect.ConnectRaised? ==> connect.text != ""
    requires reopen.ConnectRaised? ==> reopen.text != ""
    ensures var (msg, err) := IntendedSingleRequest(methodName, params, address, connect, exchange,
                                                    reopen, runFailure);
            && (err == "" <==> runFailure.None? && connect.Connected? && exchange.Replied?)
            && (err != "" ==> msg == JNull)
            && (err == "" ==> msg == exchange.reply)
  {
  }
}
